=== FILE: README.md ===
# SvgBooga texture import, modelled in Dafny

SvgBooga turns an SVG file into an engine texture asset (`USvgTexture2D`). Importing goes like this:

- The background colour is stored on the asset.
- The document is loaded. Its intrinsic size is stored as the asset's original width and height, together with its aspect ratio.
- A render size is chosen that keeps the document's aspect ratio and *covers* the requested texture box.
- The document is rasterised at that size onto the background colour, packed as a 32-bit `R<<24 | G<<16 | B<<8 | A` word.
- The rasteriser's premultiplied ARGB32 bitmap is copied into a tightly packed BGRA8 sRGB engine image. The bitmap's rows sit `stride` bytes apart; the image has no row padding.
- That image is resized to the texture size and committed into the first mip of the texture's platform data.

The model covers that pipeline, one module per stage:

| module | file | stage |
|---|---|---|
| `ColorPacking` | `color.dfy` | clamping and truncating colour channels to bytes, and packing them into the renderer's background word |
| `CoverFit` | `fit.dfy` | the cover-fit render size |
| `PixelRemap` | `pixels.dfy` | the strided-bitmap-to-packed-image conversion: a functional reference definition plus the nested-loop method, proved equal |
| `TextureCommit` | `commit.dfy` | the commit's guard chain and the ordered engine effects it performs |
| `SvgImport` | `svg_import.dfy` | `UpdateTextureFromSvg` and `UpdateTextureFromBitmap`, tying the stages together |
| `Wrappers`, `Arithmetic` | `wrappers.dfy`, `arith.dfy` | `Option`, and small multiplication and division facts |

Some code is foreign: the SVG parser and rasteriser, the engine's image resize, and the engine texture calls. Their results are parameters of the model:

- the loaded document, or its absence;
- the rendered bitmap;
- the resized bytes;
- whether the mip lock hands out a buffer;
- whether the caller is on the game thread.

Floating-point values are modelled as exact reals. A `static_cast` from a float to an integer is truncation toward zero (`CoverFit.Truncate`).

The model follows the code as written:

- The render size is the *truncation* of `TextureHeight * AspectRatio` (or of `TextureWidth / AspectRatio`), not its rounding. With exact arithmetic truncation still covers the target (`CoverFit.CoverInvariant`), because the scaled side is at least the target side, which is a whole number. In 32-bit floating point it need not: see `CoverFit.CoverInvariant` under "Left out".
- `UpdateTextureFromSvg` returns true once the bitmap is valid, even when the commit then stops at one of its guards (`SvgImport.SuccessDoesNotImplyCommit`).
- No ceiling on the render size or pixel count is enforced anywhere.
- When the second lock of the first mip returns no buffer, the commit returns without unlocking it. The mip stays locked, and the next commit stops at the locked-bulk-data guard (`TextureCommit.LockFailureBlocksNextCommit`).

## Model

| member | source | states |
|---|---|---|
| ColorPacking.ChannelValue | Source/SvgBooga/Private/SvgTexture2D.cpp:13-16 | a channel scaled by 255 and clamped to [0, 255] becomes the largest integer not above the scaled value; it is at most 255, 0 for every channel at or below 0, and 255 for every channel at or above 1 (it saturates, never wraps) |
| ColorPacking.ChannelByte | Source/SvgBooga/Private/SvgTexture2D.cpp:13-16 | the `uint8` a channel is cast to holds exactly the channel value |
| ColorPacking.ChannelValueMonotone | Source/SvgBooga/Private/SvgTexture2D.cpp:13-16 | a larger channel never gives a smaller byte |
| ColorPacking.PackRgba | Source/SvgBooga/Private/SvgTexture2D.cpp:18-19 | each of R, G, B and A can be read back from the packed word, at shifts 24, 16, 8 and 0 |
| ColorPacking.PackRgbaIsPositionalSum | Source/SvgBooga/Private/SvgTexture2D.cpp:18-19 | OR-ing the shifted bytes equals their positional sum R·2^24 + G·2^16 + B·2^8 + A: the bytes never overlap |
| ColorPacking.ConvertLinearColorToInteger | Source/SvgBooga/Private/SvgTexture2D.cpp:11-20 | the top byte of the background word is the red channel's byte, then green, blue and alpha |
| ColorPacking.SameWordIffSameBytes | Source/SvgBooga/Private/SvgTexture2D.cpp:11-20 | two colours give the same word if and only if all four channel bytes agree |
| ColorPacking.OpaqueRedWord | Source/SvgBooga/Private/SvgTexture2D.cpp:11-20 | opaque red packs to 0xFF0000FF; the out-of-range colour (3.5, -2, -0.25, 7) saturates to the same word; transparent black packs to 0 |
| CoverFit.Truncate | Source/SvgBooga/Private/SvgTexture2D.cpp:51 | the float-to-int cast drops the fractional part toward zero, for either sign |
| CoverFit.ComputeRenderSize | Source/SvgBooga/Private/SvgTexture2D.cpp:44-57 | if the document is at least as wide as the target relative to height, the render height is the target height and the width is height × aspect truncated toward zero; otherwise the width is the target width and the height is width / aspect truncated toward zero |
| CoverFit.ComputeRenderSizeMatchesIntegerForm | Source/SvgBooga/Private/SvgTexture2D.cpp:44-57 | for positive sizes the fit equals an integer-only reference: compare the cross products `tw·oh` and `ow·th`, then divide with integer division |
| CoverFit.CoverInvariant | Source/SvgBooga/Private/SvgTexture2D.cpp:48-57 | for positive sizes the render size is at least the target size in both dimensions |
| CoverFit.EqualAspectIsExact | Source/SvgBooga/Private/SvgTexture2D.cpp:48-57 | when the document and target aspect ratios agree, the render size is exactly the target size |
| CoverFit.SquareTargetScenarios | Source/SvgBooga/Private/SvgTexture2D.cpp:44-57 | a 100×50 document for a 64×64 target renders at 128×64; a 50×100 one at 64×128 |
| PixelRemap.ToImage | Source/SvgBooga/Private/SvgTexture2D.cpp:71-106 | an invalid bitmap gives the default empty image; a valid one gives a BGRA8 sRGB image of the bitmap's width and height with width·height·4 bytes |
| PixelRemap.ConvertBitmapToImage | Source/SvgBooga/Private/SvgTexture2D.cpp:71-106 | the nested copy loop produces exactly the reference image, and byte k of pixel (X, Y) lands at (Y·width + X)·4 + k from Y·stride + X·4 + k |
| PixelRemap.PixelPlacement | Source/SvgBooga/Private/SvgTexture2D.cpp:91-101 | for one pixel byte, both offsets are in bounds and the image byte at the packed offset is the bitmap byte at the strided offset, channel order and premultiplied value unchanged |
| PixelRemap.ConvertPlacement | Source/SvgBooga/Private/SvgTexture2D.cpp:87-103 | the placement formula holds at every pixel byte of every row and column |
| PixelRemap.DecomposeDestIndex | Source/SvgBooga/Private/SvgTexture2D.cpp:97 | every offset below width·height·4 is the destination of some (row, column, channel) |
| PixelRemap.DestIndexInjective | Source/SvgBooga/Private/SvgTexture2D.cpp:97 | two pixel bytes with the same packed offset are the same (row, column, channel), so together with `DecomposeDestIndex` each offset has exactly one source byte |
| PixelRemap.PlacementDetermines | Source/SvgBooga/Private/SvgTexture2D.cpp:87-103 | any buffer of width·height·4 bytes that satisfies the placement formula is the converted image, so the formula specifies the conversion completely |
| PixelRemap.RendererLayoutInBounds | Source/SvgBooga/Private/SvgTexture2D.cpp:91-97 | with the renderer's layout (stride ≥ 4·width, stride·height bytes) every read and every write of the loop is in bounds |
| PixelRemap.PaddingIrrelevant | Source/SvgBooga/Private/SvgTexture2D.cpp:91-97 | two bitmaps that agree on every pixel byte convert to the same image, whatever their row padding holds |
| PixelRemap.TightStrideIsPrefix | Source/SvgBooga/Private/SvgTexture2D.cpp:91-97 | when stride = 4·width the converted image is the first width·height·4 bytes of the bitmap |
| PixelRemap.CopyPixel | Source/SvgBooga/Private/SvgTexture2D.cpp:91-101 | one pass of the inner loop appends the pixel's four bytes, in their B, G, R, A order, at the destination offset, and leaves every earlier image byte unchanged |
| PixelRemap.CopyRow | Source/SvgBooga/Private/SvgTexture2D.cpp:89-102 | the inner loop over a row appends that row's 4·width pixel bytes, padding skipped, after the rows already written, leaving those unchanged |
| PixelRemap.PaddedTwoByTwo | Source/SvgBooga/Private/SvgTexture2D.cpp:71-106 | a 2×2 bitmap with 12-byte rows converts to its 16 pixel bytes in order, padding dropped |
| TextureCommit.FreshPlatformData | Source/SvgBooga/Private/SvgTexture2D.cpp:139-149 | replacement platform data has the texture's size and one unlocked mip |
| TextureCommit.UpdateTextureFromImage | Source/SvgBooga/Private/SvgTexture2D.cpp:108-189 | the guards fire in order (game thread, source image, texture, mip count, locked bulk data, mip lock), each exactly when the earlier ones passed, and the commit succeeds exactly when all of them pass; past the mip guards the first mip is reallocated to width·height·4 bytes; the entry guards return before any change; platform data is replaced exactly when it is missing or of another size; only a successful commit writes the mip, writing exactly the resized bytes and initialising the source from them, clearing the import data and ending by updating the resource; every other return has done at most the platform-data replacement and one reallocation of the mip to width·height·4 bytes; a refused second lock leaves the first mip locked |
| TextureCommit.RecommitKeepsPlatformData | Source/SvgBooga/Private/SvgTexture2D.cpp:136-159 | after a successful commit, a second commit at the same size does not replace the platform data and succeeds exactly when the mip lock is granted; if the lock is refused, the same data comes back with its first mip locked |
| TextureCommit.LockFailureBlocksNextCommit | Source/SvgBooga/Private/SvgTexture2D.cpp:160-186 | after a refused second lock, the next commit at the same size stops at the locked-bulk-data guard and changes nothing |
| SvgImport.OriginalSize | Source/SvgBooga/Private/SvgTexture2D.cpp:42-43 | the stored original width and height are the document's width and height truncated toward zero |
| SvgImport.UpdateTextureFromBitmap | Source/SvgBooga/Private/SvgTexture2D.cpp:192-196 | the converted image is always present, so the commit never stops for a missing source image; the commit is at the requested texture size (platform data of that size, the mip reallocated to width·height·4 bytes); the commit stops for the thread exactly when the caller is off the game thread, and succeeds exactly when the caller's texture passes the mip guards and the caller's lock is granted; a successful commit writes the resized bytes |
| SvgImport.UpdateTextureFromSvg | Source/SvgBooga/Private/SvgTexture2D.cpp:30-69 | the background colour is stored even when loading fails; a failed load changes no other setting and asks nothing of the renderer; a loaded document sets the path, the truncated original size and the aspect ratio, and asks the renderer for the cover-fit size with the packed background; the import reports success exactly when the document loaded and the bitmap is valid, and the commit runs exactly then, at the target size and with the caller's engine state (thread, texture, resized bytes, lock outcome) |
| SvgImport.RenderRequestCoversTarget | Source/SvgBooga/Private/SvgTexture2D.cpp:41-60 | for a document of at least 1×1 and a positive target, the renderer is asked for a bitmap at least as large as the target |
| SvgImport.SuccessDoesNotImplyCommit | Source/SvgBooga/Private/SvgTexture2D.cpp:61-68 | for any document of at least 1×1, any positive target and any background, an import off the game thread with a valid bitmap still returns true, while the commit performs no effect |
| SvgImport.WideDocumentScenario | Source/SvgBooga/Private/SvgTexture2D.cpp:30-69 | a 100×50 document imported at 64×64 on opaque red is rendered at 128×64 with background word 0xFF0000FF, with stored aspect ratio 2 |

## Left out

- Parsing and rasterising SVG (lunasvg) are foreign code. The loaded document and the rendered bitmap are inputs; the model records what the renderer is asked for.
- The engine's `ImageResize` is foreign code. Its output is the `scaled` input of the commit, and the temporary image it fills is not modelled.
- The engine texture calls are modelled only as an ordered list of effects: `SetPlatformData`, `ReallocMip`, `WriteMip`, `InitSource`, `ClearImportData` and `UpdateResource`. Each lock, `Realloc`, unlock group becomes one `ReallocMip`; the `Memcpy` into the locked mip becomes `WriteMip`; clearing `AssetImportData` becomes `ClearImportData`. The locks and unlocks themselves are not effects. The first lock's return value is ignored by the code and is not an input.
- `IsInGameThread` is a boolean input.
- Log messages are not modelled.
- The constructor, `Serialize`, the property getters and setters, resource creation, LOD size calculation and streaming hooks are outside the import pipeline.
- NaN and infinite floats are not modelled.
- Floating-point rounding in `Color * 255.0f`, in the aspect-ratio divisions and in `TextureHeight * AspectRatio` is not modelled: all of these are exact rationals.
- CoverFit.CoverInvariant: holds only under exact arithmetic, and so does CoverFit.EqualAspectIsExact. In 32-bit floats the source can render one pixel short of the target. Take a 7×23 document at a 7×23 target: `7.0f / 23` rounds down to about 0.30434781, `23 * AspectRatio` gives about 6.9999995f, and the cast gives a render width of 6. The same document at 14×46 gives 13 (float32 arithmetic computed by hand).
- CoverFit.ComputeRenderSize: requires a non-zero document height and target height, because the model divides exact reals. The source's float division by zero gives an infinity or NaN, which is not modelled. For the same reason it requires a non-zero document width in the branch that divides by the aspect ratio.
- SvgImport.UpdateTextureFromSvg: carries the same division requirement (`ImportDefined`). It also requires the bitmap to be readable at its stride, which is the renderer's contract.
- PixelRemap.ConvertBitmapToImage: requires every byte the loop reads to lie in the buffer (`Readable`). The source trusts the renderer for this and does not check it.
- The 32-bit unsigned wrap-around of `Y * Stride + X * 4` and `(Y * BitmapWidth + X) * 4` is not modelled. Nor is the `int` overflow of `TextureWidth * TextureHeight * 4` or of the truncating cast to `int`. Indices and sizes are unbounded integers.
- The conversion of the document's float size to the `int32` original width and height is modelled as truncation. Values outside the `int32` range are not modelled.
- ColorPacking.PackRgbaIsPositionalSum: states the positional sum as a 32-bit word equation, not as an unbounded integer.
- The resized bytes are not constrained to be `TextureWidth * TextureHeight * 4` long; the copy writes whatever the resize produced.

=== FILE: arith.dfy ===
/** Small facts about integer multiplication and division used by the index proofs. */
module Arithmetic {
  /** Multiplying by a non-negative factor keeps the order. */
  lemma MulLeft(a: int, b: int, c: int)
    requires a <= b && 0 <= c
    ensures a * c <= b * c
  {
  }

  /** Multiplying a successor: one more copy of m. */
  lemma MulSucc(j: int, m: int)
    ensures (j + 1) * m == j * m + m
  {
  }

  /** Division with remainder, by repeated subtraction. */
  lemma DivMod(a: nat, d: nat) returns (q: nat, r: nat)
    requires 0 < d
    ensures a == q * d + r && r < d
  {
    q, r := 0, a;
    while r >= d
      invariant a == q * d + r
    {
      q, r := q + 1, r - d;
    }
  }
}

=== FILE: color.dfy ===
/**
 * Packing of the background colour handed to the SVG renderer.
 *
 * The engine stores a colour as four normalised channels. The renderer takes one
 * 32-bit word with red in the top byte and alpha in the bottom byte; each channel
 * is scaled by 255, clamped to [0, 255] and truncated to a byte, so channels
 * outside [0, 1] saturate instead of wrapping.
 */
module ColorPacking {

  /** A linear colour with nominally normalised channels (any real is accepted). */
  datatype LinearColor = LinearColor(r: real, g: real, b: real, a: real)

  /** The default background: fully transparent black. */
  const Transparent := LinearColor(0.0, 0.0, 0.0, 0.0)

  /** Clamp with the engine's argument order (value, min, max). */
  function Clamp(x: real, lo: real, hi: real): (y: real)
    requires lo <= hi
    ensures lo <= y <= hi
    ensures lo <= x <= hi ==> y == x
  {
    if x < lo then lo else if x < hi then x else hi
  }

  /** One channel scaled to the byte range and clamped, before truncation. */
  function Scaled(c: real): (s: real)
    ensures 0.0 <= s <= 255.0
  {
    Clamp(c * 255.0, 0.0, 255.0)
  }

  /**
   * One channel as a byte value. Truncating a value already clamped to [0, 255]
   * is taking its floor: the value is the largest integer not above the scaled channel.
   */
  function ChannelValue(c: real): (v: nat)
    ensures v <= 255
    ensures v as real <= Scaled(c) < v as real + 1.0
    ensures c <= 0.0 ==> v == 0
    ensures c >= 1.0 ==> v == 255
  {
    Scaled(c).Floor
  }

  lemma ByteSucc(b: bv8)
    requires b as int < 255
    ensures (b + 1) as int == b as int + 1
  {
  }

  /** The byte holding v, built up by counting. `v as bv8` would be the same byte, but
      relating that conversion back to v is costly for the solver; counting up by one
      keeps each step to an 8-bit increment. */
  function ByteOf(v: nat): (b: bv8)
    requires v < 256
    ensures b as int == v
  {
    if v == 0 then 0 else ByteSucc(ByteOf(v - 1)); ByteOf(v - 1) + 1
  }

  /** The channel value as the 8-bit unsigned integer the engine stores. */
  function ChannelByte(c: real): (b: bv8)
    ensures b as int == ChannelValue(c)
  {
    ByteOf(ChannelValue(c))
  }

  /** A larger input never gives a smaller byte: the scale saturates, it never wraps around. */
  lemma ChannelValueMonotone(c: real, d: real)
    requires c <= d
    ensures ChannelValue(c) <= ChannelValue(d)
  {
    assert c * 255.0 <= d * 255.0;
    assert Scaled(c) <= Scaled(d);
  }

  /** The byte `(w >> shift) & 0xFF`, as a reader of the packed word extracts it. */
  function ByteAt(w: bv32, shift: nat): (b: bv8)
    requires shift <= 24
  {
    ((w >> shift) & 0xFF) as bv8
  }

  /**
   * `R << 24 | G << 16 | B << 8 | A` on 32-bit words. The four bytes occupy disjoint
   * bit ranges, so the word is their positional sum and each byte can be read back.
   */
  function PackRgba(r: bv8, g: bv8, b: bv8, a: bv8): (w: bv32)
    ensures ByteAt(w, 24) == r && ByteAt(w, 16) == g && ByteAt(w, 8) == b && ByteAt(w, 0) == a
  {
    (r as bv32 << 24) | (g as bv32 << 16) | (b as bv32 << 8) | (a as bv32)
  }

  /** The packed word is the positional sum of its bytes, with no carry between them. */
  lemma PackRgbaIsPositionalSum(r: bv8, g: bv8, b: bv8, a: bv8)
    ensures PackRgba(r, g, b, a) == (r as bv32) * 0x100_0000 + (g as bv32) * 0x1_0000 + (b as bv32) * 0x100 + (a as bv32)
  {
  }

  /** The renderer's background word for an engine colour. */
  function ConvertLinearColorToInteger(color: LinearColor): (w: bv32)
    ensures ByteAt(w, 24) as int == ChannelValue(color.r)
    ensures ByteAt(w, 16) as int == ChannelValue(color.g)
    ensures ByteAt(w, 8) as int == ChannelValue(color.b)
    ensures ByteAt(w, 0) as int == ChannelValue(color.a)
  {
    PackRgba(ChannelByte(color.r), ChannelByte(color.g), ChannelByte(color.b), ChannelByte(color.a))
  }

  /** Two colours give the same word exactly when every channel gives the same byte. */
  lemma SameWordIffSameBytes(c: LinearColor, d: LinearColor)
    ensures ConvertLinearColorToInteger(c) == ConvertLinearColorToInteger(d) <==>
      (ChannelValue(c.r) == ChannelValue(d.r) && ChannelValue(c.g) == ChannelValue(d.g) &&
       ChannelValue(c.b) == ChannelValue(d.b) && ChannelValue(c.a) == ChannelValue(d.a))
  {
    var wc, wd := ConvertLinearColorToInteger(c), ConvertLinearColorToInteger(d);
    if ChannelValue(c.r) == ChannelValue(d.r) && ChannelValue(c.g) == ChannelValue(d.g) &&
       ChannelValue(c.b) == ChannelValue(d.b) && ChannelValue(c.a) == ChannelValue(d.a)
    {
      assert ChannelByte(c.r) == ChannelByte(d.r) && ChannelByte(c.g) == ChannelByte(d.g);
      assert ChannelByte(c.b) == ChannelByte(d.b) && ChannelByte(c.a) == ChannelByte(d.a);
    }
  }

  /** Opaque red is the word 0xFF0000FF; out-of-range channels saturate to the same word. */
  lemma OpaqueRedWord()
    ensures ConvertLinearColorToInteger(LinearColor(1.0, 0.0, 0.0, 1.0)) == 0xFF00_00FF
    ensures ConvertLinearColorToInteger(LinearColor(3.5, -2.0, -0.25, 7.0)) == 0xFF00_00FF
    ensures ConvertLinearColorToInteger(Transparent) == 0
  {
    assert ChannelByte(1.0) == 255 && ChannelByte(3.5) == 255 && ChannelByte(7.0) == 255;
    assert ChannelByte(0.0) == 0 && ChannelByte(-2.0) == 0 && ChannelByte(-0.25) == 0;
  }
}

=== FILE: commit.dfy ===
/**
 * Commit of a converted image into the engine texture (`UpdateTextureFromImage`).
 *
 * The engine calls are abstract: the commit is modelled by the guard it stops at, the
 * ordered list of effects it performs on the texture and the texture's resulting
 * platform data. The resize to the texture size is foreign code; its output is an input.
 */
module TextureCommit {
  import opened Wrappers
  import PixelRemap

  /** Where the commit returned. */
  datatype CommitStatus =
    | NotOnGameThread
    | NoSourceImage
    | NoTexture
    | NoMips
    | BulkDataLocked
    | MipLockFailed
    | Committed

  /** The texture's platform data as far as the commit reads it: its size, the number of
      mips and whether the first mip's bulk data is locked. */
  datatype PlatformData = PlatformData(sizeX: int, sizeY: int, mipCount: nat, firstMipLocked: bool)

  /** The engine texture the asset owns. */
  datatype Texture = Texture(platformData: Option<PlatformData>)

  /** One change to engine state, in the order the commit makes them. */
  datatype Effect =
    | SetPlatformData(sizeX: int, sizeY: int)
    | ReallocMip(byteCount: int)
    | WriteMip(bytes: seq<bv8>)
    | InitSource(width: int, height: int, bytes: seq<bv8>)
    | ClearImportData
    | UpdateResource

  datatype CommitResult = CommitResult(status: CommitStatus, effects: seq<Effect>, platformData: Option<PlatformData>)

  /** Platform data made for a texture size: B8G8R8A8, one unlocked mip of that size. */
  function FreshPlatformData(tw: int, th: int): (p: PlatformData)
    ensures p.sizeX == tw && p.sizeY == th && p.mipCount == 1 && !p.firstMipLocked
  {
    PlatformData(tw, th, 1, false)
  }

  /** The platform data is replaced when it is missing or sized for another texture. */
  predicate NeedsNewPlatformData(current: Option<PlatformData>, tw: int, th: int)
  {
    current.None? || current.value.sizeX != tw || current.value.sizeY != th
  }

  /** The guards before any engine state changes: game thread, image, texture. */
  predicate PassesEntryGuards(onGameThread: bool, source: Option<PixelRemap.Image>, texture: Option<Texture>)
  {
    onGameThread && source.Some? && texture.Some?
  }

  /** The platform data the mip guards inspect, after a possible replacement. */
  function PlatformInUse(current: Option<PlatformData>, tw: int, th: int): (p: PlatformData)
  {
    if NeedsNewPlatformData(current, tw, th) then FreshPlatformData(tw, th) else current.value
  }

  /**
   * `UpdateTextureFromImage`. `scaled` is the source image resized to tw x th by the
   * engine; `lockGranted` is whether the second lock of the first mip returns a buffer.
   */
  function UpdateTextureFromImage(onGameThread: bool, source: Option<PixelRemap.Image>, texture: Option<Texture>,
                                  tw: int, th: int, scaled: seq<bv8>, lockGranted: bool): (r: CommitResult)
    // The guards fire in order, each exactly when the earlier ones passed.
    ensures r.status == NotOnGameThread <==> !onGameThread
    ensures r.status == NoSourceImage <==> onGameThread && source.None?
    ensures r.status == NoTexture <==> onGameThread && source.Some? && texture.None?
    ensures r.status == NoMips <==> (PassesEntryGuards(onGameThread, source, texture) &&
      PlatformInUse(texture.value.platformData, tw, th).mipCount == 0)
    ensures r.status == BulkDataLocked <==> (PassesEntryGuards(onGameThread, source, texture) &&
      PlatformInUse(texture.value.platformData, tw, th).mipCount > 0 &&
      PlatformInUse(texture.value.platformData, tw, th).firstMipLocked)
    ensures r.status == MipLockFailed <==> (PassesEntryGuards(onGameThread, source, texture) &&
      PlatformInUse(texture.value.platformData, tw, th).mipCount > 0 &&
      !PlatformInUse(texture.value.platformData, tw, th).firstMipLocked && !lockGranted)
    ensures r.status == Committed <==> (PassesEntryGuards(onGameThread, source, texture) &&
      PlatformInUse(texture.value.platformData, tw, th).mipCount > 0 &&
      !PlatformInUse(texture.value.platformData, tw, th).firstMipLocked && lockGranted)
    // Past the mip guards the first mip is reallocated to the texture's byte size.
    ensures r.status in {MipLockFailed, Committed} <==> ReallocMip(tw * th * 4) in r.effects
    // An entry guard returns before touching anything.
    ensures !PassesEntryGuards(onGameThread, source, texture) ==>
      r.effects == [] && r.platformData == (if texture.Some? then texture.value.platformData else None)
    // Only a successful commit writes mip data, and then it writes exactly the resized image.
    ensures forall e | e in r.effects :: e.WriteMip? ==> r.status == Committed && e.bytes == scaled
    ensures r.status == Committed ==> WriteMip(scaled) in r.effects && r.effects[|r.effects| - 1] == UpdateResource
    ensures r.status == Committed ==> InitSource(tw, th, scaled) in r.effects && ClearImportData in r.effects
    // Every other return leaves after at most the platform-data replacement and one
    // reallocation of the first mip to the texture's byte size.
    ensures r.status != Committed ==> forall e | e in r.effects :: e == SetPlatformData(tw, th) || e == ReallocMip(tw * th * 4)
    // The platform data is replaced exactly when it was missing or of another size.
    ensures SetPlatformData(tw, th) in r.effects <==>
      PassesEntryGuards(onGameThread, source, texture) && NeedsNewPlatformData(texture.value.platformData, tw, th)
    // A refused second lock returns without unlocking, so the first mip stays locked.
    ensures PassesEntryGuards(onGameThread, source, texture) && r.status != MipLockFailed ==>
      r.platformData == Some(PlatformInUse(texture.value.platformData, tw, th))
    ensures r.status == MipLockFailed ==>
      r.platformData == Some(PlatformInUse(texture.value.platformData, tw, th).(firstMipLocked := true))
  {
    if !onGameThread then CommitResult(NotOnGameThread, [], if texture.Some? then texture.value.platformData else None)
    else if source.None? then CommitResult(NoSourceImage, [], if texture.Some? then texture.value.platformData else None)
    else if texture.None? then CommitResult(NoTexture, [], None)
    else
      var current := texture.value.platformData;
      var replaced := NeedsNewPlatformData(current, tw, th);
      var platform := PlatformInUse(current, tw, th);
      var setup := if replaced then [SetPlatformData(tw, th)] else [];
      if platform.mipCount == 0 then CommitResult(NoMips, setup, Some(platform))
      else if platform.firstMipLocked then CommitResult(BulkDataLocked, setup, Some(platform))
      else
        var byteCount := tw * th * 4;
        var sized := setup + [ReallocMip(byteCount)];
        if !lockGranted then CommitResult(MipLockFailed, sized, Some(platform.(firstMipLocked := true)))
        else
          var written := sized + [ReallocMip(byteCount), WriteMip(scaled), InitSource(tw, th, scaled),
                                  ClearImportData, UpdateResource];
          CommitResult(Committed, written, Some(platform))
  }

  /**
   * A committed texture keeps its platform data on the next commit at the same size:
   * the data the first commit left behind is of that size, so it is not replaced again.
   * A refused lock on that second commit leaves the first mip locked.
   */
  lemma RecommitKeepsPlatformData(source: PixelRemap.Image, texture: Texture, tw: int, th: int,
                                  scaled: seq<bv8>, next: PixelRemap.Image, rescaled: seq<bv8>, granted: bool)
    requires UpdateTextureFromImage(true, Some(source), Some(texture), tw, th, scaled, true).status == Committed
    ensures var first := UpdateTextureFromImage(true, Some(source), Some(texture), tw, th, scaled, true);
      var second := UpdateTextureFromImage(true, Some(next), Some(Texture(first.platformData)), tw, th, rescaled, granted);
      SetPlatformData(tw, th) !in second.effects &&
      (granted ==> second.platformData == first.platformData) &&
      (!granted ==> second.platformData == Some(first.platformData.value.(firstMipLocked := true))) &&
      (second.status == Committed <==> granted)
  {
    var first := UpdateTextureFromImage(true, Some(source), Some(texture), tw, th, scaled, true);
    assert first.status == Committed;
    var p := PlatformInUse(texture.platformData, tw, th);
    assert first.platformData == Some(p);
    assert p.sizeX == tw && p.sizeY == th && p.mipCount > 0 && !p.firstMipLocked;
  }

  /**
   * After a refused lock, the next commit at the same size stops at the locked-bulk-data
   * guard, having changed nothing but keeping the platform data, whatever the lock would
   * now do.
   */
  lemma LockFailureBlocksNextCommit(source: PixelRemap.Image, texture: Texture, tw: int, th: int,
                                    scaled: seq<bv8>, next: PixelRemap.Image, rescaled: seq<bv8>, granted: bool)
    requires UpdateTextureFromImage(true, Some(source), Some(texture), tw, th, scaled, false).status == MipLockFailed
    ensures var first := UpdateTextureFromImage(true, Some(source), Some(texture), tw, th, scaled, false);
      var second := UpdateTextureFromImage(true, Some(next), Some(Texture(first.platformData)), tw, th, rescaled, granted);
      second.status == BulkDataLocked && second.effects == [] && second.platformData == first.platformData
  {
    var first := UpdateTextureFromImage(true, Some(source), Some(texture), tw, th, scaled, false);
    var p := PlatformInUse(texture.platformData, tw, th);
    assert first.platformData == Some(p.(firstMipLocked := true));
    assert p.sizeX == tw && p.sizeY == th && p.mipCount > 0;
  }
}

=== FILE: fit.dfy ===
/**
 * The render size chosen before rasterising: it keeps the document's aspect ratio
 * and covers the requested texture box, so the later resize only ever shrinks.
 *
 * The document's size is held as two 32-bit integers; the aspect ratios are
 * floating-point quotients, modelled here as exact rationals; the render size is
 * the truncation toward zero of a floating-point product or quotient.
 */
module CoverFit {
  import opened Arithmetic

  /** Width and height, in pixels, the document is rasterised at. */
  datatype RenderSize = RenderSize(width: int, height: int)

  /** n is x with its fractional part dropped toward zero: the floor of a non-negative
      value, the ceiling of a negative one. At most one integer qualifies. */
  predicate TruncatesTo(x: real, n: int)
  {
    (0.0 <= x ==> 0 <= n && n as real <= x < n as real + 1.0) &&
    (x < 0.0 ==> n <= 0 && n as real - 1.0 < x <= n as real)
  }

  /** A conversion of a floating value to int: truncation toward zero. */
  function Truncate(x: real): (n: int)
    ensures TruncatesTo(x, n)
  {
    if x >= 0.0 then x.Floor else -((-x).Floor)
  }

  /** Width over height, as a floating-point division of the two integers. */
  function AspectRatio(w: int, h: int): (ratio: real)
    requires h != 0
  {
    w as real / h as real
  }

  /**
   * The divisions the fit performs are defined: neither height is zero, and the
   * second branch, which divides by the document's aspect ratio, only runs when
   * that ratio is non-zero.
   */
  predicate FitDefined(ow: int, oh: int, tw: int, th: int)
  {
    oh != 0 && th != 0 && (AspectRatio(ow, oh) < AspectRatio(tw, th) ==> ow != 0)
  }

  /**
   * The fit of `UpdateTextureFromSvg`: when the document is at least as wide (relative
   * to its height) as the target, the height is the target's and the width follows
   * the aspect ratio; otherwise the width is the target's and the height follows.
   * Either way one side matches the target exactly and the other is the
   * document-proportioned length truncated toward zero.
   */
  function ComputeRenderSize(ow: int, oh: int, tw: int, th: int): (s: RenderSize)
    requires FitDefined(ow, oh, tw, th)
    ensures AspectRatio(ow, oh) >= AspectRatio(tw, th) ==>
      s.height == th && TruncatesTo(th as real * AspectRatio(ow, oh), s.width)
    ensures AspectRatio(ow, oh) < AspectRatio(tw, th) ==>
      s.width == tw && TruncatesTo(tw as real / AspectRatio(ow, oh), s.height)
  {
    var aspect := AspectRatio(ow, oh);
    if aspect >= AspectRatio(tw, th) then
      RenderSize(Truncate(th as real * aspect), th)
    else
      RenderSize(tw, Truncate(tw as real / aspect))
  }

  /** The same fit computed on integers only, for positive sizes: cross-multiplied
      aspect comparison and truncating integer division. */
  function IntegerRenderSize(ow: int, oh: int, tw: int, th: int): (s: RenderSize)
    requires 0 < ow && 0 < oh && 0 < tw && 0 < th
  {
    if tw * oh <= ow * th then RenderSize((th * ow) / oh, th) else RenderSize(tw, (tw * oh) / ow)
  }

  /** Integer division by a positive divisor is at least every c with c * b <= a. */
  lemma DivAtLeast(a: int, b: int, c: int)
    requires 0 < b && c * b <= a
    ensures c <= a / b
  {
    var q, r := a / b, a % b;
    assert a == q * b + r && 0 <= r < b;
    if q < c {
      MulLeft(q + 1, c, b);
      assert false;
    }
  }

  lemma FractionInUnit(r: int, b: int)
    requires 0 <= r < b
    ensures 0.0 <= r as real / b as real < 1.0
  {
  }

  /** For a non-negative numerator the float-to-int truncation of a quotient is integer division. */
  lemma TruncatedQuotient(a: int, b: int)
    requires 0 <= a && 0 < b
    ensures Truncate(a as real / b as real) == a / b
  {
    var q, r := a / b, a % b;
    assert a == q * b + r && 0 <= r < b;
    var br := b as real;
    FractionInUnit(r, b);
    assert a as real == q as real * br + r as real;
    assert a as real / br == q as real + r as real / br;
  }

  /** For positive sizes, comparing the aspect ratios is comparing the cross products. */
  lemma AspectOrder(ow: int, oh: int, tw: int, th: int)
    requires 0 < ow && 0 < oh && 0 < tw && 0 < th
    ensures AspectRatio(ow, oh) >= AspectRatio(tw, th) <==> tw * oh <= ow * th
  {
    var p, q := AspectRatio(ow, oh), AspectRatio(tw, th);
    assert p * oh as real == ow as real;
    assert q * th as real == tw as real;
    assert (p - q) * (oh * th) as real == (ow * th - tw * oh) as real;
  }

  lemma ScaleQuotient(t: int, a: int, h: int)
    requires 0 < h
    ensures t as real * (a as real / h as real) == (t * a) as real / h as real
  {
    assert (t * a) as real == t as real * a as real;
  }

  lemma DivideByQuotient(t: int, a: int, h: int)
    requires 0 < a && 0 < h
    ensures t as real / (a as real / h as real) == (t * h) as real / a as real
  {
    var q := a as real / h as real;
    assert q * h as real == a as real;
    assert (t * h) as real == t as real * h as real;
    assert (t as real / q) * q == t as real;
    assert ((t * h) as real / a as real) * q == t as real;
  }

  /** The exact-arithmetic fit is the integer fit. */
  lemma ComputeRenderSizeMatchesIntegerForm(ow: int, oh: int, tw: int, th: int)
    requires 0 < ow && 0 < oh && 0 < tw && 0 < th
    ensures FitDefined(ow, oh, tw, th)
    ensures ComputeRenderSize(ow, oh, tw, th) == IntegerRenderSize(ow, oh, tw, th)
  {
    AspectOrder(ow, oh, tw, th);
    if tw * oh <= ow * th {
      ScaleQuotient(th, ow, oh);
      TruncatedQuotient(th * ow, oh);
    } else {
      DivideByQuotient(tw, ow, oh);
      TruncatedQuotient(tw * oh, ow);
    }
  }

  /** Cover invariant: with positive sizes the render size is at least the target in both
      dimensions, so the image is only ever shrunk to the texture. */
  lemma CoverInvariant(ow: int, oh: int, tw: int, th: int)
    requires 0 < ow && 0 < oh && 0 < tw && 0 < th
    ensures FitDefined(ow, oh, tw, th)
    ensures ComputeRenderSize(ow, oh, tw, th).width >= tw
    ensures ComputeRenderSize(ow, oh, tw, th).height >= th
  {
    ComputeRenderSizeMatchesIntegerForm(ow, oh, tw, th);
    if tw * oh <= ow * th {
      DivAtLeast(th * ow, oh, tw);
    } else {
      DivAtLeast(tw * oh, ow, th);
    }
  }

  /** When the aspect ratios agree the render size is exactly the target size. */
  lemma EqualAspectIsExact(ow: int, oh: int, tw: int, th: int)
    requires 0 < ow && 0 < oh && 0 < tw && 0 < th
    requires ow * th == tw * oh
    ensures FitDefined(ow, oh, tw, th)
    ensures ComputeRenderSize(ow, oh, tw, th) == RenderSize(tw, th)
  {
    ComputeRenderSizeMatchesIntegerForm(ow, oh, tw, th);
    assert th * ow == tw * oh;
  }

  /** A 100x50 document for a 64x64 texture renders at 128x64; a 50x100 one at 64x128. */
  lemma SquareTargetScenarios()
    ensures FitDefined(100, 50, 64, 64) && ComputeRenderSize(100, 50, 64, 64) == RenderSize(128, 64)
    ensures FitDefined(50, 100, 64, 64) && ComputeRenderSize(50, 100, 64, 64) == RenderSize(64, 128)
  {
    ComputeRenderSizeMatchesIntegerForm(100, 50, 64, 64);
    ComputeRenderSizeMatchesIntegerForm(50, 100, 64, 64);
  }
}

=== FILE: pixels.dfy ===
/**
 * Conversion of the renderer's bitmap into a tightly packed engine image.
 *
 * The renderer hands over premultiplied ARGB32 pixels, which in memory are the bytes
 * B, G, R, A, in rows `stride` bytes apart (a row may end in padding). The engine
 * image is BGRA8 with sRGB gamma, `width * height * 4` bytes with no padding. The
 * conversion copies each pixel's four bytes in the same order and does not
 * un-premultiply alpha.
 */
module PixelRemap {
  import opened Wrappers
  import opened Arithmetic

  /** Offsets of the channels inside one pixel, in both layouts. */
  const Blue: nat := 0
  const Green: nat := 1
  const Red: nat := 2
  const Alpha: nat := 3

  /** The renderer's bitmap; `data` is None for a null buffer. */
  datatype Bitmap = Bitmap(width: nat, height: nat, stride: nat, data: Option<seq<bv8>>)
  {
    /** The renderer's validity test: non-zero size and a buffer. */
    predicate Valid()
    {
      width > 0 && height > 0 && data.Some?
    }

    /** Every byte the conversion reads lies inside the buffer: the last row needs
        its first `4 * width` bytes, earlier rows start `stride` bytes apart. */
    predicate Readable()
    {
      Valid() ==> (height - 1) * stride + 4 * width <= |data.value|
    }

    /** The layout the renderer produces: each row holds its pixels and the buffer
        holds `stride * height` bytes. */
    predicate RendererLayout()
    {
      Valid() ==> 4 * width <= stride && stride * height <= |data.value|
    }
  }

  /** The format tag of an engine image: unset for a default-constructed one. */
  datatype ImageFormat = Unformatted | Bgra8Srgb

  /** An engine image: `rawData` is the tightly packed pixel bytes. */
  datatype Image = Image(width: nat, height: nat, format: ImageFormat, rawData: seq<bv8>)

  /** A default-constructed engine image. */
  const EmptyImage := Image(0, 0, Unformatted, [])

  /** Offset of byte k of pixel (x, y) in the renderer's strided buffer. */
  function SourceIndex(stride: nat, y: nat, x: nat, k: nat): (i: nat)
  {
    y * stride + x * 4 + k
  }

  /** Offset of byte k of pixel (x, y) in the packed image. */
  function DestIndex(width: nat, y: nat, x: nat, k: nat): (i: nat)
  {
    (y * width + x) * 4 + k
  }

  lemma SliceAppend(s: seq<bv8>, lo: nat, mid: nat, hi: nat)
    requires lo <= mid <= hi <= |s|
    ensures s[lo..hi] == s[lo..mid] + s[mid..hi]
  {
  }

  /** Row y's pixel bytes lie inside a readable buffer. */
  lemma RowInBounds(b: Bitmap, y: nat)
    requires b.Valid() && b.Readable() && y < b.height
    ensures y * b.stride + 4 * b.width <= |b.data.value|
  {
    MulLeft(y, b.height - 1, b.stride);
  }

  /** The first `4 * width` bytes of row y: its pixels without the row's padding. */
  function RowPixels(b: Bitmap, y: nat): (row: seq<bv8>)
    requires b.Valid() && b.Readable() && y < b.height
    ensures |row| == 4 * b.width
  {
    RowInBounds(b, y);
    b.data.value[y * b.stride .. y * b.stride + 4 * b.width]
  }

  /** The pixel bytes of the first n rows, back to back. */
  function PackedRows(b: Bitmap, n: nat): (out: seq<bv8>)
    requires b.Valid() && b.Readable() && n <= b.height
    ensures |out| == n * (4 * b.width)
  {
    if n == 0 then [] else PackedRows(b, n - 1) + RowPixels(b, n - 1)
  }

  /**
   * Reference definition of `ConvertBitmapToImage`: an invalid bitmap gives a
   * default-constructed image; a valid one gives a BGRA8 image of the bitmap's size
   * whose bytes are the rows' pixel bytes, back to back.
   */
  function ToImage(b: Bitmap): (img: Image)
    requires b.Readable()
    ensures !b.Valid() ==> img == EmptyImage
    ensures b.Valid() ==> img.width == b.width && img.height == b.height && img.format == Bgra8Srgb
    ensures b.Valid() ==> |img.rawData| == b.width * b.height * 4
  {
    if !b.Valid() then EmptyImage
    else
      var rows := PackedRows(b, b.height);
      assert b.height * (4 * b.width) == b.width * b.height * 4;
      Image(b.width, b.height, Bgra8Srgb, rows)
  }

  /** Byte c of row j sits at offset `j * 4 * width + c` of the packed rows. */
  lemma {:induction false} PackedRowsAt(b: Bitmap, n: nat, j: nat, c: nat)
    requires b.Valid() && b.Readable() && n <= b.height
    requires j < n && c < 4 * b.width
    ensures j * (4 * b.width) + c < |PackedRows(b, n)|
    ensures PackedRows(b, n)[j * (4 * b.width) + c] == RowPixels(b, j)[c]
  {
    if j < n - 1 {
      PackedRowsAt(b, n - 1, j, c);
    }
  }

  /** A packed offset is its row's start plus the byte's offset inside the row. */
  lemma DestIndexSplit(w: nat, y: nat, x: nat, k: nat)
    requires x < w && k < 4
    ensures DestIndex(w, y, x, k) == y * (4 * w) + (4 * x + k)
    ensures 4 * x + k < 4 * w
  {
  }

  /** Byte c of row y's pixels is byte c past the row's start in the bitmap. */
  lemma RowPixelsAt(b: Bitmap, y: nat, c: nat)
    requires b.Valid() && b.Readable() && y < b.height && c < 4 * b.width
    ensures y * b.stride + c < |b.data.value|
    ensures RowPixels(b, y)[c] == b.data.value[y * b.stride + c]
  {
    RowInBounds(b, y);
  }

  /** Byte k of pixel (x, y) of the packed rows is byte k of that pixel in the bitmap. */
  lemma PackedPixel(b: Bitmap, y: nat, x: nat, k: nat)
    requires b.Valid() && b.Readable() && y < b.height && x < b.width && k < 4
    ensures SourceIndex(b.stride, y, x, k) < |b.data.value|
    ensures DestIndex(b.width, y, x, k) < |PackedRows(b, b.height)|
    ensures PackedRows(b, b.height)[DestIndex(b.width, y, x, k)] == b.data.value[SourceIndex(b.stride, y, x, k)]
  {
    var c := 4 * x + k;
    DestIndexSplit(b.width, y, x, k);
    PackedRowsAt(b, b.height, y, c);
    RowPixelsAt(b, y, c);
    assert SourceIndex(b.stride, y, x, k) == y * b.stride + c;
  }

  /** The same, for the converted image. */
  lemma PixelPlacement(b: Bitmap, y: nat, x: nat, k: nat)
    requires b.Valid() && b.Readable() && y < b.height && x < b.width && k < 4
    ensures SourceIndex(b.stride, y, x, k) < |b.data.value|
    ensures DestIndex(b.width, y, x, k) < |ToImage(b).rawData|
    ensures ToImage(b).rawData[DestIndex(b.width, y, x, k)] == b.data.value[SourceIndex(b.stride, y, x, k)]
  {
    PackedPixel(b, y, x, k);
    assert ToImage(b).rawData == PackedRows(b, b.height);
  }

  /** Byte-placement formula: byte k of pixel (x, y) moves from its strided offset to its
      packed offset, channel order and premultiplied values unchanged. */
  lemma ConvertPlacement(b: Bitmap)
    requires b.Valid() && b.Readable()
    ensures forall y: nat, x: nat, k: nat | y < b.height && x < b.width && k < 4 ::
      SourceIndex(b.stride, y, x, k) < |b.data.value| &&
      DestIndex(b.width, y, x, k) < |ToImage(b).rawData| &&
      ToImage(b).rawData[DestIndex(b.width, y, x, k)] == b.data.value[SourceIndex(b.stride, y, x, k)]
  {
    forall y: nat, x: nat, k: nat | y < b.height && x < b.width && k < 4
      ensures SourceIndex(b.stride, y, x, k) < |b.data.value|
      ensures DestIndex(b.width, y, x, k) < |ToImage(b).rawData|
      ensures ToImage(b).rawData[DestIndex(b.width, y, x, k)] == b.data.value[SourceIndex(b.stride, y, x, k)]
    {
      PixelPlacement(b, y, x, k);
    }
  }

  /** Every packed offset below `width * height * 4` is the offset of one pixel byte. */
  lemma DecomposeDestIndex(w: nat, h: nat, i: nat) returns (y: nat, x: nat, k: nat)
    requires 0 < w && i < w * h * 4
    ensures y < h && x < w && k < 4 && DestIndex(w, y, x, k) == i
  {
    var row := 4 * w;
    var r;
    y, r := DivMod(i, row);
    x, k := DivMod(r, 4);
    DestIndexSplit(w, y, x, k);
    assert h * row == w * h * 4;
    if y >= h {
      MulLeft(h, y, row);
    }
  }

  /** Rows of length `row` with offsets below `row` never overlap. */
  lemma RowUnique(y: nat, c: nat, y2: nat, c2: nat, row: nat)
    requires c < row && c2 < row && y * row + c == y2 * row + c2
    ensures y == y2 && c == c2
  {
    if y < y2 {
      MulLeft(y + 1, y2, row);
      MulSucc(y, row);
      assert false;
    } else if y2 < y {
      MulLeft(y2 + 1, y, row);
      MulSucc(y2, row);
      assert false;
    }
  }

  /** Distinct pixel bytes have distinct packed offsets: with `DecomposeDestIndex`, each
      offset of the packed image is the destination of exactly one pixel byte. */
  lemma DestIndexInjective(w: nat, y: nat, x: nat, k: nat, y2: nat, x2: nat, k2: nat)
    requires x < w && x2 < w && k < 4 && k2 < 4
    requires DestIndex(w, y, x, k) == DestIndex(w, y2, x2, k2)
    ensures y == y2 && x == x2 && k == k2
  {
    DestIndexSplit(w, y, x, k);
    DestIndexSplit(w, y2, x2, k2);
    RowUnique(y, 4 * x + k, y2, 4 * x2 + k2, 4 * w);
  }

  /** The placement formula determines the image completely: a buffer of the right size
      that agrees with it at every pixel byte is the converted image. */
  lemma PlacementDetermines(b: Bitmap, out: seq<bv8>)
    requires b.Valid() && b.Readable()
    requires |out| == b.width * b.height * 4
    requires forall y: nat, x: nat, k: nat | y < b.height && x < b.width && k < 4 ::
      SourceIndex(b.stride, y, x, k) < |b.data.value| && DestIndex(b.width, y, x, k) < |out| &&
      out[DestIndex(b.width, y, x, k)] == b.data.value[SourceIndex(b.stride, y, x, k)]
    ensures out == ToImage(b).rawData
  {
    var img := ToImage(b).rawData;
    forall i | 0 <= i < |out|
      ensures out[i] == img[i]
    {
      var y, x, k := DecomposeDestIndex(b.width, b.height, i);
      PixelPlacement(b, y, x, k);
    }
  }

  /** In the renderer's layout every read and every write is in bounds. */
  lemma RendererLayoutInBounds(b: Bitmap)
    requires b.Valid() && b.RendererLayout()
    ensures b.Readable()
    ensures forall y: nat, x: nat, k: nat | y < b.height && x < b.width && k < 4 ::
      SourceIndex(b.stride, y, x, k) < |b.data.value| && DestIndex(b.width, y, x, k) < b.width * b.height * 4
  {
    MulSucc(b.height - 1, b.stride);
    ConvertPlacement(b);
  }

  /** The padding at the end of each row never reaches the image: bitmaps that agree on
      every pixel byte convert to the same image whatever their padding holds. */
  lemma PaddingIrrelevant(b: Bitmap, c: Bitmap)
    requires b.Valid() && b.Readable() && c.Valid() && c.Readable()
    requires b.width == c.width && b.height == c.height && b.stride == c.stride
    requires forall y: nat, x: nat, k: nat | y < b.height && x < b.width && k < 4 ::
      SourceIndex(b.stride, y, x, k) < |b.data.value| && SourceIndex(b.stride, y, x, k) < |c.data.value| &&
      b.data.value[SourceIndex(b.stride, y, x, k)] == c.data.value[SourceIndex(b.stride, y, x, k)]
    ensures ToImage(b) == ToImage(c)
  {
    ConvertPlacement(b);
    PlacementDetermines(c, ToImage(b).rawData);
  }

  /** Without padding the conversion is the identity on the first `width * height * 4` bytes. */
  lemma TightStrideIsPrefix(b: Bitmap)
    requires b.Valid() && b.Readable() && b.stride == 4 * b.width
    ensures b.width * b.height * 4 <= |b.data.value|
    ensures ToImage(b).rawData == b.data.value[..b.width * b.height * 4]
  {
    var n := b.width * b.height * 4;
    MulSucc(b.height - 1, b.stride);
    assert b.height * b.stride == n;
    var prefix := b.data.value[..n];
    forall y: nat, x: nat, k: nat | y < b.height && x < b.width && k < 4
      ensures SourceIndex(b.stride, y, x, k) < |b.data.value| && DestIndex(b.width, y, x, k) < |prefix|
      ensures prefix[DestIndex(b.width, y, x, k)] == b.data.value[SourceIndex(b.stride, y, x, k)]
    {
      PixelPlacement(b, y, x, k);
      DestIndexSplit(b.width, y, x, k);
      assert SourceIndex(b.stride, y, x, k) == DestIndex(b.width, y, x, k);
    }
    PlacementDetermines(b, prefix);
  }

  /** A 2 x 2 bitmap with 12-byte rows (4 bytes of padding each) converts to its 16
      pixel bytes with the padding dropped and every channel kept in place. */
  lemma PaddedTwoByTwo()
    ensures var b := Bitmap(2, 2, 12, Some([1, 2, 3, 4, 5, 6, 7, 8, 0xEE, 0xEE, 0xEE, 0xEE,
                                            9, 10, 11, 12, 13, 14, 15, 16, 0xEE, 0xEE, 0xEE, 0xEE]));
      b.Readable() && b.RendererLayout() &&
      ToImage(b) == Image(2, 2, Bgra8Srgb, [1, 2, 3, 4, 5, 6, 7, 8, 9, 10, 11, 12, 13, 14, 15, 16])
  {
    var data: seq<bv8> := [1, 2, 3, 4, 5, 6, 7, 8, 0xEE, 0xEE, 0xEE, 0xEE,
                           9, 10, 11, 12, 13, 14, 15, 16, 0xEE, 0xEE, 0xEE, 0xEE];
    var b := Bitmap(2, 2, 12, Some(data));
    assert data[0..8] == [1, 2, 3, 4, 5, 6, 7, 8];
    assert data[12..20] == [9, 10, 11, 12, 13, 14, 15, 16];
    assert RowPixels(b, 0) == data[0..8];
    assert RowPixels(b, 1) == data[12..20];
    assert PackedRows(b, 2) == [] + RowPixels(b, 0) + RowPixels(b, 1);
  }

  /** The body of the inner loop of `ConvertBitmapToImage`: reads a pixel's B, G, R and A
      bytes at `pixelIndex` of the bitmap and writes them, in the same order, at
      `destIndex` of the image; nothing before `destIndex` changes. */
  method CopyPixel(data: seq<bv8>, pixelIndex: nat, raw: array<bv8>, destIndex: nat)
    requires pixelIndex + 4 <= |data| && destIndex + 4 <= raw.Length
    modifies raw
    ensures raw[..destIndex + 4] == old(raw[..destIndex]) + data[pixelIndex .. pixelIndex + 4]
  {
    var alpha := data[pixelIndex + Alpha];
    var red := data[pixelIndex + Red];
    var green := data[pixelIndex + Green];
    var blue := data[pixelIndex + Blue];

    raw[destIndex + Blue] := blue;
    raw[destIndex + Green] := green;
    raw[destIndex + Red] := red;
    raw[destIndex + Alpha] := alpha;
    assert data[pixelIndex .. pixelIndex + 4] == [blue, green, red, alpha];
    assert raw[..destIndex + 4] == old(raw[..destIndex]) + [blue, green, red, alpha];
  }

  /** The inner loop of `ConvertBitmapToImage`: copies row y's pixels to the packed
      offsets that follow the rows already copied. */
  method CopyRow(b: Bitmap, y: nat, raw: array<bv8>)
    requires b.Valid() && b.Readable() && y < b.height
    requires raw.Length == b.width * b.height * 4
    modifies raw
    ensures (y + 1) * (4 * b.width) <= raw.Length
    ensures raw[..(y + 1) * (4 * b.width)] == old(raw[..y * (4 * b.width)]) + RowPixels(b, y)
  {
    var width, stride, data := b.width, b.stride, b.data.value;
    ghost var rowBytes := 4 * width;
    ghost var srcRow, dstRow := y * stride, y * rowBytes;
    RowInBounds(b, y);
    MulSucc(y, rowBytes);
    MulLeft(y + 1, b.height, rowBytes);
    assert b.height * rowBytes == raw.Length;
    assert dstRow + rowBytes <= raw.Length;
    ghost var done := raw[..dstRow];
    var x := 0;
    while x < width
      invariant 0 <= x <= width
      invariant raw[..dstRow + 4 * x] == done + data[srcRow .. srcRow + 4 * x]
    {
      var pixelIndex := SourceIndex(stride, y, x, 0);
      var destIndex := DestIndex(width, y, x, 0);
      DestIndexSplit(width, y, x, 0);
      assert pixelIndex == srcRow + 4 * x && destIndex == dstRow + 4 * x;
      CopyPixel(data, pixelIndex, raw, destIndex);
      SliceAppend(data, srcRow, srcRow + 4 * x, srcRow + 4 * x + 4);
      x := x + 1;
    }
  }

  /**
   * `ConvertBitmapToImage`: an invalid bitmap gives a default-constructed image;
   * otherwise the packed buffer is allocated once, at its final size, and filled
   * row by row, each pixel's four bytes moving from its strided offset to its
   * packed offset.
   */
  method ConvertBitmapToImage(b: Bitmap) returns (img: Image)
    requires b.Readable()
    ensures img == ToImage(b)
    ensures b.Valid() ==> forall y: nat, x: nat, k: nat | y < b.height && x < b.width && k < 4 ::
      SourceIndex(b.stride, y, x, k) < |b.data.value| &&
      DestIndex(b.width, y, x, k) < |img.rawData| &&
      img.rawData[DestIndex(b.width, y, x, k)] == b.data.value[SourceIndex(b.stride, y, x, k)]
  {
    if !b.Valid() {
      return EmptyImage;
    }
    var width, height := b.width, b.height;
    var raw := new bv8[width * height * 4];
    ghost var rowBytes := 4 * width;
    assert height * rowBytes == raw.Length;
    var y := 0;
    while y < height
      invariant 0 <= y <= height
      invariant y * rowBytes <= raw.Length
      invariant raw[..y * rowBytes] == PackedRows(b, y)
    {
      CopyRow(b, y, raw);
      y := y + 1;
    }
    img := Image(width, height, Bgra8Srgb, raw[..]);
    assert raw[..] == raw[..height * rowBytes];
    ConvertPlacement(b);
  }
}

=== FILE: svg_import.dfy ===
/**
 * The import pipeline of the SVG texture asset (`UpdateTextureFromSvg` and
 * `UpdateTextureFromBitmap`): load, fit, render, convert, commit.
 *
 * The SVG parser and rasteriser are foreign code: the loaded document (or its absence)
 * and the rendered bitmap are inputs, and the model states what the renderer is asked
 * for. The engine side of the commit is abstract, as in `TextureCommit`.
 */
module SvgImport {
  import opened Wrappers
  import opened ColorPacking
  import CoverFit
  import PixelRemap
  import TextureCommit

  /** A parsed document, as far as the pipeline reads it: its intrinsic size. */
  datatype SvgDocument = SvgDocument(width: real, height: real)

  /** The asset's import settings, persisted with it. */
  datatype SvgAsset = SvgAsset(importPath: string, originalWidth: int, originalHeight: int,
                               aspectRatio: real, backgroundColor: LinearColor)

  /** The call made to the rasteriser: render size and packed background word. */
  datatype RenderRequest = RenderRequest(width: int, height: int, background: bv32)

  /** The engine side of a commit: thread, texture, resized image and mip lock outcome. */
  datatype CommitContext = CommitContext(onGameThread: bool, texture: Option<TextureCommit.Texture>,
                                         scaled: seq<bv8>, lockGranted: bool)

  /** Outcome of an import: the returned flag, the asset's settings afterwards, the
      renderer call if one was made and the commit if one ran. */
  datatype SvgUpdate = SvgUpdate(succeeded: bool, asset: SvgAsset, request: Option<RenderRequest>,
                                 commit: Option<TextureCommit.CommitResult>)

  /** The document's size as stored in the asset: each dimension truncated to an integer. */
  function OriginalSize(doc: SvgDocument): (size: (int, int))
    ensures CoverFit.TruncatesTo(doc.width, size.0) && CoverFit.TruncatesTo(doc.height, size.1)
  {
    (CoverFit.Truncate(doc.width), CoverFit.Truncate(doc.height))
  }

  /**
   * `UpdateTextureFromBitmap`: convert, then commit. The conversion always yields an
   * image, so the commit never stops for a missing source image.
   */
  function UpdateTextureFromBitmap(bitmap: PixelRemap.Bitmap, tw: int, th: int, ctx: CommitContext)
    : (r: TextureCommit.CommitResult)
    requires bitmap.Readable()
    ensures r.status != TextureCommit.NoSourceImage
    ensures r.status == TextureCommit.Committed ==> ctx.lockGranted && TextureCommit.WriteMip(ctx.scaled) in r.effects
    // The commit is at the requested texture size, not at the bitmap's size.
    ensures ctx.onGameThread && ctx.texture.Some? ==>
      r.platformData.Some? && r.platformData.value.sizeX == tw && r.platformData.value.sizeY == th
    ensures r.status in {TextureCommit.MipLockFailed, TextureCommit.Committed} ==>
      TextureCommit.ReallocMip(tw * th * 4) in r.effects
    // The caller's thread and lock outcome decide the commit.
    ensures r.status == TextureCommit.NotOnGameThread <==> !ctx.onGameThread
    ensures r.status == TextureCommit.Committed <==> (ctx.onGameThread && ctx.texture.Some? &&
      TextureCommit.PlatformInUse(ctx.texture.value.platformData, tw, th).mipCount > 0 &&
      !TextureCommit.PlatformInUse(ctx.texture.value.platformData, tw, th).firstMipLocked && ctx.lockGranted)
  {
    TextureCommit.UpdateTextureFromImage(ctx.onGameThread, Some(PixelRemap.ToImage(bitmap)), ctx.texture,
                                         tw, th, ctx.scaled, ctx.lockGranted)
  }

  /** The fit is defined for a loaded document: the divisions it performs are by non-zero values. */
  predicate ImportDefined(loaded: Option<SvgDocument>, tw: int, th: int)
  {
    loaded.Some? ==> CoverFit.FitDefined(OriginalSize(loaded.value).0, OriginalSize(loaded.value).1, tw, th)
  }

  /**
   * `UpdateTextureFromSvg`. The background colour is stored first; a document that does
   * not load returns false with the other settings untouched; a loaded one updates the
   * import settings and asks the renderer for the cover-fit size with the packed
   * background; an invalid bitmap returns false; a valid one is committed and the
   * import returns true whatever the commit's own outcome.
   */
  function UpdateTextureFromSvg(asset: SvgAsset, path: string, tw: int, th: int, background: LinearColor,
                                loaded: Option<SvgDocument>, rendered: PixelRemap.Bitmap, ctx: CommitContext)
    : (r: SvgUpdate)
    requires ImportDefined(loaded, tw, th)
    requires rendered.Readable()
    ensures r.asset.backgroundColor == background
    ensures loaded.None? ==> (!r.succeeded && r.request.None? && r.commit.None? &&
      r.asset == asset.(backgroundColor := background))
    ensures loaded.Some? ==>
      var (ow, oh) := OriginalSize(loaded.value);
      r.asset == SvgAsset(path, ow, oh, CoverFit.AspectRatio(ow, oh), background) &&
      r.request.Some? &&
      r.request.value.width == CoverFit.ComputeRenderSize(ow, oh, tw, th).width &&
      r.request.value.height == CoverFit.ComputeRenderSize(ow, oh, tw, th).height &&
      ByteAt(r.request.value.background, 24) as int == ChannelValue(background.r) &&
      ByteAt(r.request.value.background, 16) as int == ChannelValue(background.g) &&
      ByteAt(r.request.value.background, 8) as int == ChannelValue(background.b) &&
      ByteAt(r.request.value.background, 0) as int == ChannelValue(background.a)
    ensures r.succeeded <==> loaded.Some? && rendered.Valid()
    ensures r.commit.Some? <==> r.succeeded
    ensures r.succeeded ==> r.commit.value.status != TextureCommit.NoSourceImage
    // The commit is at the target size, in the caller's engine state.
    ensures r.succeeded && ctx.onGameThread && ctx.texture.Some? ==>
      r.commit.value.platformData.Some? &&
      r.commit.value.platformData.value.sizeX == tw && r.commit.value.platformData.value.sizeY == th
    ensures r.succeeded && r.commit.value.status == TextureCommit.Committed ==>
      ctx.lockGranted && TextureCommit.WriteMip(ctx.scaled) in r.commit.value.effects
    ensures r.succeeded ==> (r.commit.value.status == TextureCommit.NotOnGameThread <==> !ctx.onGameThread)
    ensures r.succeeded ==> (r.commit.value.status == TextureCommit.Committed <==> (ctx.onGameThread && ctx.texture.Some? &&
      TextureCommit.PlatformInUse(ctx.texture.value.platformData, tw, th).mipCount > 0 &&
      !TextureCommit.PlatformInUse(ctx.texture.value.platformData, tw, th).firstMipLocked && ctx.lockGranted))
  {
    var asset := asset.(backgroundColor := background);
    if loaded.None? then
      SvgUpdate(false, asset, None, None)
    else
      var (ow, oh) := OriginalSize(loaded.value);
      var asset := asset.(importPath := path, originalWidth := ow, originalHeight := oh,
                          aspectRatio := CoverFit.AspectRatio(ow, oh));
      var size := CoverFit.ComputeRenderSize(ow, oh, tw, th);
      var request := RenderRequest(size.width, size.height, ConvertLinearColorToInteger(background));
      if !rendered.Valid() then
        SvgUpdate(false, asset, Some(request), None)
      else
        SvgUpdate(true, asset, Some(request), Some(UpdateTextureFromBitmap(rendered, tw, th, ctx)))
  }

  /** For a document and a target of positive size the renderer is asked for a bitmap
      that covers the target in both dimensions. */
  lemma RenderRequestCoversTarget(asset: SvgAsset, path: string, tw: int, th: int, background: LinearColor,
                                  doc: SvgDocument, rendered: PixelRemap.Bitmap, ctx: CommitContext)
    requires 1.0 <= doc.width && 1.0 <= doc.height && 0 < tw && 0 < th
    requires rendered.Readable()
    ensures ImportDefined(Some(doc), tw, th)
    ensures var r := UpdateTextureFromSvg(asset, path, tw, th, background, Some(doc), rendered, ctx);
      r.request.Some? && r.request.value.width >= tw && r.request.value.height >= th
  {
    var (ow, oh) := OriginalSize(doc);
    CoverFit.CoverInvariant(ow, oh, tw, th);
  }

  /** The import reports success even when the commit stopped at one of its guards: the
      returned flag covers loading and rendering only. */
  lemma SuccessDoesNotImplyCommit(asset: SvgAsset, path: string, tw: int, th: int, background: LinearColor,
                                  doc: SvgDocument, rendered: PixelRemap.Bitmap, ctx: CommitContext)
    requires 1.0 <= doc.width && 1.0 <= doc.height && 0 < tw && 0 < th
    requires rendered.Valid() && rendered.Readable() && !ctx.onGameThread
    ensures ImportDefined(Some(doc), tw, th)
    ensures var r := UpdateTextureFromSvg(asset, path, tw, th, background, Some(doc), rendered, ctx);
      r.succeeded && r.commit.value.status == TextureCommit.NotOnGameThread && r.commit.value.effects == []
  {
    var (ow, oh) := OriginalSize(doc);
    CoverFit.CoverInvariant(ow, oh, tw, th);
  }

  /** A 100 x 50 document imported at 64 x 64 is rendered at 128 x 64 on opaque red
      (0xFF0000FF); its stored aspect ratio is 2. */
  lemma WideDocumentScenario(asset: SvgAsset, rendered: PixelRemap.Bitmap, ctx: CommitContext)
    requires rendered.Readable()
    ensures ImportDefined(Some(SvgDocument(100.0, 50.0)), 64, 64)
    ensures var r := UpdateTextureFromSvg(asset, "logo.svg", 64, 64, LinearColor(1.0, 0.0, 0.0, 1.0),
                                          Some(SvgDocument(100.0, 50.0)), rendered, ctx);
      r.request == Some(RenderRequest(128, 64, 0xFF00_00FF)) && r.asset.aspectRatio == 2.0 &&
      r.asset.originalWidth == 100 && r.asset.originalHeight == 50
  {
    CoverFit.SquareTargetScenarios();
    OpaqueRedWord();
  }
}

=== FILE: wrappers.dfy ===
/** The nullable-pointer idiom of the engine code, as a value: a present value or nothing. */
module Wrappers {

  datatype Option<+T> = None | Some(value: T)
}
